=== FILE: README.md ===
# Recipe portal: grocery list, error handling and recipe service in Dafny

This project models the data logic of the recipe portal's front end:

- **The consolidated grocery list dialog** (`ConsolidatedList`). It is opened with a list of
  ingredient lines. It keeps that list as its state and never changes it. It shows one
  checkbox row per line, in the given order, and a "No ingredients to display" notice when
  the list is empty. Each row's text comes from `formatIngredient`. A line with no quantity,
  or a quantity of 0 ("to taste"), shows its name alone. Any other line shows the rounded
  quantity, then the unit if there is one, then the name. The dialog does not merge,
  deduplicate, normalise or sort anything.
- **Error normalisation** (`ErrorHandler`). This covers the `AppError` record, the
  `ErrorTypes` codes with their `ErrorMessages`, and `handleError`. `handleError` picks a
  message and a status in a fixed order: the API response's message, then the error's own
  message, then a fixed default.
- **The recipe service** (`RecipeService`). It has four operations: `searchRecipes`,
  `getRecipeById`, `getConsolidatedList` and `generateRecipe`. Each one awaits at most one API
  call, and how that call settled is an input of type `Outcome`. `NODE_ENV`, the AI-features
  flag and the table of mock recipes are inputs too. What is modelled is each operation's
  choice of result:
  - `searchRecipes` keeps the first five search results;
  - in development, the fallback search keeps the mock recipes whose name contains the
    query, ignoring case;
  - `getRecipeById` falls back to the mock recipe whose id `parseInt` reads from the given
    id;
  - the consolidated-list fallback is the plain concatenation of the selected recipes'
    ingredients;
  - `generateRecipe` refuses to run when the AI flag is off.
- **JavaScript string built-ins** the above rely on (`JsText`): `toLowerCase` on ASCII
  letters, `includes`, integer `toString`, and `parseInt` without a radix.

Files: `wrappers.dfy` (Option, Result), `js_text.dfy`, `recipes.dfy` (ingredient and recipe
records), `consolidated_list.dfy`, `error_handler.dfy`, `recipe_service.dfy`.

Inputs that stand for I/O or the environment:

- the API reply or failure (`Outcome`);
- `process.env.NODE_ENV` and `REACT_APP_ENABLE_AI_FEATURES` (`Env`);
- the mock recipe table (a `seq<Recipe>` parameter);
- the number-to-text rounding `parseFloat(q.toFixed(2))` (a `round2: real -> string`
  parameter).

## Model

| member | source | states |
|---|---|---|
| `ConsolidatedList.FormatIngredient` | src/components/modals/ConsolidatedList.js:8-16 | The text always ends with the ingredient's name. A missing or zero quantity gives exactly the name. Otherwise the text is the rounded quantity, the unit when it is non-empty, then the name, separated by single spaces. |
| `ConsolidatedList.ToTasteShowsNameOnly` | src/components/modals/ConsolidatedList.js:9-11 | A quantity-0 ("to taste") line shows its name only, whatever its unit. So a "0" appears in the text only if the name contains one. |
| `ConsolidatedList.Render` | src/components/modals/ConsolidatedList.js:35-53 | The dialog shows exactly as many rows as it was given ingredients, in the same order. Row i has checkbox id `ingredient-<i>` and is labelled with ingredient i's text, which ends in that ingredient's name. The empty notice appears if and only if there are no rows. |
| `ConsolidatedList.CheckboxIdsDistinct` | src/components/modals/ConsolidatedList.js:36-44 | Two different rows never share a checkbox id, so each label's `htmlFor` refers only to its own row's checkbox. |
| `ConsolidatedList.SampleLineTexts` | src/components/modals/ConsolidatedList.js:8-16 | `formatIngredient` gives "2 medium Tomatoes", "1 large Onions", "Salt" and "1 bunch Cilantro" for the test's four sample lines, given that `round2` writes whole numbers without a fraction. |
| `ConsolidatedList.SampleListLabels` | src/components/modals/__tests__/ConsolidatedList.test.js:76-93 | For the four sample lines of the dialog's test, the labels are "2 medium Tomatoes", "1 large Onions", "Salt" and "1 bunch Cilantro", and there is no empty notice. |
| `ErrorHandler.NewAppError` | src/utils/errorHandler.js:3-8 | The constructed error has the name "AppError" and stores the given message, type and status code. |
| `ErrorHandler.MessageOf` | src/utils/errorHandler.js:22-29 | Every error type's code has an entry in `ErrorMessages`, and that message is non-empty. |
| `ErrorHandler.Code` | src/utils/errorHandler.js:12-19 | The `ErrorTypes` object: each error type's code string, non-empty, and ending in `_ERROR` for every type except `NOT_FOUND`. |
| `ErrorHandler.CodesDistinct` | src/utils/errorHandler.js:12-19 | Different error types have different codes. |
| `ErrorHandler.AllErrorTypesComplete` | src/utils/errorHandler.js:12-19 | The list of six error types contains every error type. |
| `ErrorHandler.ErrorMessagesKeys` | src/utils/errorHandler.js:12-29 | The keys of `ErrorMessages` are exactly the codes of the six error types. |
| `ErrorHandler.ErrorMessagesSize` | src/utils/errorHandler.js:22-29 | `ErrorMessages` has exactly as many entries as there are error types, so no entry overwrites another. |
| `ErrorHandler.HandleError` | src/utils/errorHandler.js:36-58 | The result always has a non-empty message. A non-empty response message wins, together with the response's status. If there is none, a non-empty top-level message is used, with the error's status, or 500 when that status is missing or 0. Otherwise, including for a null error, the fixed default message with 500. |
| `ErrorHandler.ResponseMessageWins` | src/utils/errorHandler.js:38-51 | When the response carries a message, the error's own message and status have no influence on the result. |
| `ErrorHandler.HandleErrorIdempotent` | src/utils/errorHandler.js:36-58 | Handling an already-handled error again keeps its message. A truthy status is kept; a missing or zero status becomes 500. |
| `ErrorHandler.HandleAppError` | src/utils/errorHandler.js:46-51 | An `AppError` with a message is shown with status 500, whatever its `statusCode`. |
| `JsText.LowerChar` | src/services/recipeService.js:104 | A capital 'A'..'Z' becomes the lower-case letter at the same place in the alphabet. Any other character is left unchanged. |
| `JsText.ToLower` | src/services/recipeService.js:104 | The result has the same length as the input, and each character is lower-cased on its own. |
| `JsText.ToLowerIdempotent` | src/services/recipeService.js:104 | Lower-casing twice gives the same result as lower-casing once. |
| `JsText.LowerCharEqualIff` | src/services/recipeService.js:104 | Two characters lower-case to the same character exactly when they are equal up to ASCII case. |
| `JsText.ToLowerEqualIff` | src/services/recipeService.js:104 | Two strings lower-case to the same string exactly when they have the same length and agree character by character up to ASCII case. This is why the search ignores case. |
| `JsText.Includes` | src/services/recipeService.js:104 | `s.includes(t)`: t is a prefix of s or of one of its suffixes. It can hold only when t is no longer than s, and between texts of equal length only when they are equal. |
| `JsText.IncludesIffOccurs` | src/services/recipeService.js:104 | `includes` holds if and only if the query occurs at some index of the text. |
| `JsText.IncludesEmpty` | src/services/recipeService.js:104 | Every text includes the empty query. |
| `JsText.DigitChar` | src/services/recipeService.js:152 | A digit value below 10 becomes a decimal digit character. |
| `JsText.NatToString` | src/services/recipeService.js:152 | The numeral is non-empty and all digits. It has no leading zero unless the number is 0. It has two or more digits exactly when the number is 10 or more. |
| `JsText.IntToString` | src/services/recipeService.js:152 | The numeral is non-empty and starts with "-" exactly for negative numbers. |
| `JsText.NatToStringInjective` | src/components/modals/ConsolidatedList.js:39 | Different numbers have different numerals. |
| `JsText.IntToStringInjective` | src/services/recipeService.js:152 | Different ids have different `toString` texts. |
| `JsText.TrimStart` | src/services/recipeService.js:132 | Only leading white space is removed: the dropped prefix is all white space, the rest is a suffix of the input, and it does not start with white space. |
| `JsText.RadixDigitValue` | src/services/recipeService.js:132 | '0'..'9' are worth 0..9 and 'a'..'f' and 'A'..'F' are worth 10..15. Every value is below the radix. |
| `JsText.DigitPrefix` | src/services/recipeService.js:132 | The result is the longest prefix made of radix digits: all of its characters are digits, and the next character (if any) is not. |
| `JsText.RadixValueOfNatToString` | src/services/recipeService.js:132 | Reading a decimal numeral back gives its number. |
| `JsText.DigitPrefixOfDigits` | src/services/recipeService.js:132 | In either radix, digit scanning stops exactly at the first character that is not a digit of that radix. |
| `JsText.ParseMagnitudeOfNatToString` | src/services/recipeService.js:132 | The unsigned part of `parseInt` reads a numeral back, whatever non-numeric text follows it. |
| `JsText.ParseIntSigned` | src/services/recipeService.js:132 | On text that starts with "-", "+" or a digit, `parseInt` reads the sign, if any, and then the magnitude. |
| `JsText.ParseMagnitude` | src/services/recipeService.js:132 | The unsigned part of `parseInt`. It is None (NaN) exactly when no digit of the radix follows the optional `0x`/`0X` prefix. The values read are stated by `ParseMagnitudeOfNatToString` (radix 10) and `ParseMagnitudeOfHex` (radix 16). |
| `JsText.ParseMagnitudeOfHex` | src/services/recipeService.js:132 | After a `0x` or `0X` prefix, a run of hex digits followed by anything that is not a hex digit is read as its radix-16 value. |
| `JsText.ParseSigned` | src/services/recipeService.js:132 | `parseInt` once white space is skipped: a number is found only when the text starts with a sign or a digit, and it is negative only after a `-`. |
| `JsText.ParseInt` | src/services/recipeService.js:132 | `parseInt(id)` with no radix: a number is found only when the text after the leading white space starts with a sign or a digit, and it is negative only after a `-`. None stands for NaN. |
| `JsText.TrimStartOfWhiteSpace` | src/services/recipeService.js:132 | Trimming white space followed by s gives what trimming s gives. |
| `JsText.ParseIntSkipsWhiteSpace` | src/services/recipeService.js:132 | Any white space in front of the text leaves the result of `parseInt` unchanged. |
| `JsText.ParseIntOfIntToString` | src/services/recipeService.js:132 | `parseInt(String(i) + rest)` is `i` when `rest` is empty or starts with neither a digit nor an `x`. |
| `RecipeService.FirstResults` | src/services/recipeService.js:95 | The result is the first min(5, n) results, in the order received. |
| `RecipeService.NameMatches` | src/services/recipeService.js:103-105 | The filter callback: the lower-cased name includes the lower-cased query. A match needs a query no longer than the name. |
| `RecipeService.NameMatchesIffOccurs` | src/services/recipeService.js:103-105 | A recipe matches exactly when the lower-cased query occurs at some position of the lower-cased name. |
| `RecipeService.FilterByName` | src/services/recipeService.js:103-105 | A recipe is in the result if and only if it is a mock recipe whose lower-cased name contains the lower-cased query. |
| `RecipeService.FilterByNameAppend` | src/services/recipeService.js:103-105 | Filtering keeps the table's order: the filter of a concatenation is the concatenation of the filters. |
| `RecipeService.FilterByEmptyQuery` | src/services/recipeService.js:103-105 | An empty query returns the whole mock table unchanged. |
| `RecipeService.FilterIgnoresQueryCase` | src/services/recipeService.js:104 | Lower-casing the query first does not change the result. |
| `RecipeService.SearchRecipes` | src/services/recipeService.js:86-122 | A reply with `recipes` gives its first min(5, n) entries in order. Otherwise development gives the name-filtered mocks, on both the no-data and the failure path. Production gives `[]` for a reply without recipes and fails with the search error message when the call failed. |
| `RecipeService.SearchFallbacksAgree` | src/services/recipeService.js:99-118 | In development, the no-data path and the failure path return the same results. |
| `RecipeService.FindById` | src/services/recipeService.js:132 | The index found holds the first recipe with that id. If no index is found, no recipe has that id. |
| `RecipeService.MockById` | src/services/recipeService.js:132-133 | A recipe found is a mock recipe whose id equals `parseInt(id)`. None means either `parseInt` gave NaN or no mock has that id. |
| `RecipeService.MockByIdFindsRecipe` | src/services/recipeService.js:132 | Looking up a mock by the text of its own id, optionally followed by non-numeric text, finds the first mock with that id. |
| `RecipeService.GetRecipeById` | src/services/recipeService.js:124-137 | An API reply is returned as it came. On failure, development gives `{ data }` holding the mock found by `parseInt(id)`, or null when `parseInt` gives NaN. Production fails with the lookup error message. |
| `RecipeService.SelectRecipesAppend` | src/services/recipeService.js:151-153 | Selection keeps the mock table's order and multiplicity: selecting from a concatenation is concatenating the selections. |
| `RecipeService.SelectRecipes` | src/services/recipeService.js:151-153 | A recipe is selected if and only if it is a mock recipe whose id text is in `recipeIds`. |
| `RecipeService.SelectIgnoresIdOrder` | src/services/recipeService.js:151-153 | The order and repetition of `recipeIds` do not matter. Only the set of requested ids does. |
| `RecipeService.Flatten` | src/services/recipeService.js:155-160 | The `reduce` that pushes each recipe's ingredients in turn: an ingredient is in the result exactly when it belongs to one of the recipes. Recipes without ingredients add nothing. |
| `RecipeService.FlattenAppend` | src/services/recipeService.js:155-160 | The fallback list for two runs of recipes is the concatenation of their lists: nothing is merged across recipes. |
| `RecipeService.FlattenLength` | src/services/recipeService.js:155-160 | The fallback list is exactly as long as the selected recipes' ingredient lists together. |
| `RecipeService.GatherIngredients` | src/services/recipeService.js:155-160 | The accumulating loop yields every ingredient of every selected recipe, in order (recipes without ingredients add nothing), and as many lines as they hold together. |
| `RecipeService.GetConsolidatedList` | src/services/recipeService.js:139-189 | A reply with `ingredients` is returned unchanged. Otherwise development returns the concatenated ingredients of the selected mock recipes, on both the no-data and the failure path; that list's length is the sum of their counts. Production gives an empty list for a reply without ingredients and fails with the consolidated-list error message when the call failed. |
| `RecipeService.MockGeneratedRecipe` | src/services/recipeService.js:204-224 | The stand-in recipe carries the requested name, eight ingredient lines and six steps. |
| `RecipeService.GenerateRecipe` | src/services/recipeService.js:191-228 | With the AI flag off, the call fails with "AI recipe generation is not enabled". Otherwise an API reply is returned as it came. On failure, development gives the stand-in recipe with the requested name, and production gives the generation error message. |
| `RecipeService.GenerationOffIgnoresApi` | src/services/recipeService.js:193-195 | With the AI flag off the result does not depend on the API at all: it is the same error whatever the call would have returned. |

## Left out

- Ingredient consolidation (merging by name or unit, summing quantities, sorting): the code has none. The dialog shows the list it is given, and the service's fallback concatenates lists.
- `getAIConsolidatedList` and the "AI Consolidation" button: the dialog's test mocks them, but no source file in the repository defines them.
- FormatIngredient: `parseFloat(q.toFixed(2))` and its conversion to text are a parameter `round2`. Binary floating point and its rounding are not modelled.
- FormatIngredient: a NaN quantity (falsy in JavaScript) is not modelled. Quantities are exact reals or absent.
- ToLower: only the 26 ASCII capitals are lower-cased. JavaScript's full Unicode case mapping is not modelled.
- ParseInt: only ASCII white space, NBSP, BOM and the line and paragraph separators are skipped. Other Unicode space separators are not. Numerals too long to be exact in a double are read exactly. The id is taken to be a string.
- IntToString: ids are unbounded integers. Doubles, exponent notation and non-integral ids are not modelled.
- HandleError: fields that are present but not strings or numbers are not modelled, and neither are a NaN status or the truthiness of non-string messages.
- MockById: its contract says the recipe found is a mock with the parsed id. That it is the first such mock is stated by `MockByIdFindsRecipe` and `FindById`.
- The React key (`ingredient.id || index`), the checkbox's checked state (owned by the DOM), the close button and the layout. The `id` field of ingredient lines serves only as that key and is not part of `Ingredient`.
- The `api` module (axios setup, token header, response interceptor, redirects), `console` logging and the asynchronous timing of the calls. How a call settles is an input.
- The contents of `MOCK_RECIPES`: the table is a parameter. The development stand-in of `generateRecipe` is modelled literally.
- AiFeaturesEnabled: the source computes `AI_FEATURES_ENABLED` once, when the service module is loaded, but reads `NODE_ENV` on every call. The model reads both flags from `Env` on each call, so a change to the AI flag after loading is not modelled as ignored.
- The remaining components (search bar, login, dashboard, recipe card and modals) are not part of this model.

=== FILE: consolidated_list.dfy ===
/** The consolidated grocery list dialog. It keeps the ingredient list it is
    given as its state, never changes it, and shows one checkbox row per
    ingredient, plus a notice when there is none. Nothing is merged,
    dropped or reordered. */
module ConsolidatedList {
  import opened Wrappers
  import opened JsText
  import opened Recipes

  /** JavaScript truthiness of `ingredient.quantity`: present and not 0. */
  predicate HasQuantity(quantity: Option<real>) {
    quantity.Some? && quantity.value != 0.0
  }

  /** `formatIngredient`. The caller supplies `round2`, the text that
      `parseFloat(q.toFixed(2))` becomes inside a template string; its
      floating-point behaviour is not part of this model. */
  function FormatIngredient(ingredient: Ingredient, round2: real -> string): (text: string)
    ensures EndsWith(text, ingredient.name)
    ensures !HasQuantity(ingredient.quantity) ==> text == ingredient.name
    ensures HasQuantity(ingredient.quantity) && IsTruthyText(ingredient.unit) ==>
      text == round2(ingredient.quantity.value) + " " + ingredient.unit.value + " " + ingredient.name
    ensures HasQuantity(ingredient.quantity) && !IsTruthyText(ingredient.unit) ==>
      text == round2(ingredient.quantity.value) + " " + ingredient.name
  {
    if !HasQuantity(ingredient.quantity) then
      ingredient.name
    else
      var quantity := round2(ingredient.quantity.value);
      var prefix := if IsTruthyText(ingredient.unit)
                    then quantity + " " + ingredient.unit.value + " "
                    else quantity + " ";
      prefix + ingredient.name
  }

  /** A "to taste" line (quantity 0) shows its name only, whatever its
      unit: no digit of the quantity and no unit reaches the label. */
  lemma ToTasteShowsNameOnly(ingredient: Ingredient, round2: real -> string)
    requires ingredient.quantity == Some(0.0)
    ensures FormatIngredient(ingredient, round2) == ingredient.name
    ensures !Includes(ingredient.name, "0") ==> !Includes(FormatIngredient(ingredient, round2), "0")
  {
  }

  /** One rendered row: the checkbox's id and the label that refers to it. */
  datatype Row = Row(checkboxId: string, text: string)

  /** What the dialog shows below its title: the rows, and a notice that
      appears only when the list is empty. */
  datatype View = View(rows: seq<Row>, notice: Option<string>)

  const EmptyNotice := "No ingredients to display"

  /** The id `ingredient-${index}` of the checkbox on row `index`. */
  function CheckboxId(index: nat): string {
    "ingredient-" + NatToString(index)
  }

  /** The row the dialog shows for `ingredient` at position `index`. */
  function RowAt(ingredient: Ingredient, index: nat, round2: real -> string): Row {
    Row(CheckboxId(index), FormatIngredient(ingredient, round2))
  }

  /** The dialog's body for the `ingredients` it was opened with: exactly
      one row per ingredient, in the given order, each labelled with that
      ingredient's text and ending in its name, and the empty notice if
      and only if there are no ingredients. */
  function Render(ingredients: seq<Ingredient>, round2: real -> string): (view: View)
    ensures |view.rows| == |ingredients|
    ensures forall i :: 0 <= i < |ingredients| ==>
      view.rows[i].checkboxId == CheckboxId(i)
      && view.rows[i].text == FormatIngredient(ingredients[i], round2)
      && EndsWith(view.rows[i].text, ingredients[i].name)
    ensures view.notice.Some? <==> |view.rows| == 0
    ensures view.notice.Some? ==> view.notice.value == EmptyNotice
  {
    View(seq(|ingredients|, i requires 0 <= i < |ingredients| => RowAt(ingredients[i], i, round2)),
         if ingredients == [] then Some(EmptyNotice) else None)
  }

  /** Every checkbox gets its own id, so each label's `htmlFor` names the
      checkbox on its own row only. */
  lemma {:induction false} CheckboxIdsDistinct(ingredients: seq<Ingredient>, round2: real -> string, i: nat, j: nat)
    requires i < j < |ingredients|
    ensures Render(ingredients, round2).rows[i].checkboxId != Render(ingredients, round2).rows[j].checkboxId
  {
    var rows := Render(ingredients, round2).rows;
    if rows[i].checkboxId == rows[j].checkboxId {
      var p := "ingredient-";
      assert CheckboxId(i)[|p|..] == NatToString(i);
      assert CheckboxId(j)[|p|..] == NatToString(j);
      NatToStringInjective(i, j);
    }
  }

  /** The labels of the four sample lines of the dialog's own test
      ("2 medium Tomatoes", "1 large Onions", "Salt", "1 bunch Cilantro"),
      given that `round2` writes whole numbers without a fraction. */
  lemma SampleLineTexts(round2: real -> string)
    requires round2(1.0) == "1" && round2(2.0) == "2"
    ensures FormatIngredient(Ingredient("Tomatoes", Some(2.0), Some("medium")), round2) == "2" + " " + "medium" + " " + "Tomatoes"
    ensures FormatIngredient(Ingredient("Onions", Some(1.0), Some("large")), round2) == "1" + " " + "large" + " " + "Onions"
    ensures FormatIngredient(Ingredient("Salt", Some(0.0), Some("to taste")), round2) == "Salt"
    ensures FormatIngredient(Ingredient("Cilantro", Some(1.0), Some("bunch")), round2) == "1" + " " + "bunch" + " " + "Cilantro"
  {
  }

  /** The rows the dialog's own test expects for its four sample lines. */
  lemma SampleListLabels(ingredients: seq<Ingredient>, round2: real -> string)
    requires round2(1.0) == "1" && round2(2.0) == "2"
    requires ingredients == [
        Ingredient("Tomatoes", Some(2.0), Some("medium")),
        Ingredient("Onions", Some(1.0), Some("large")),
        Ingredient("Salt", Some(0.0), Some("to taste")),
        Ingredient("Cilantro", Some(1.0), Some("bunch"))]
    ensures var view := Render(ingredients, round2);
      && |view.rows| == 4
      && view.rows[0].text == "2" + " " + "medium" + " " + "Tomatoes"
      && view.rows[1].text == "1" + " " + "large" + " " + "Onions"
      && view.rows[2].text == "Salt"
      && view.rows[3].text == "1" + " " + "bunch" + " " + "Cilantro"
      && view.notice == None
  {
    SampleLineTexts(round2);
  }
}

=== FILE: error_handler.dfy ===
/** Application errors: the `AppError` record, the table of error types and
    their user-facing messages, and `handleError`, which turns whatever was
    thrown into a `{ message, status }` pair for display. */
module ErrorHandler {
  import opened Wrappers
  import opened JsText

  /** `AppError`: an `Error` whose name is "AppError" and which carries an
      error type and an HTTP status code. */
  datatype AppError = AppError(name: string, message: string, errorType: string, statusCode: int)

  /** `new AppError(message, type, statusCode)`. */
  function NewAppError(message: string, errorType: string, statusCode: int): (e: AppError)
    ensures e.name == "AppError"
    ensures e.message == message && e.errorType == errorType && e.statusCode == statusCode
  {
    AppError("AppError", message, errorType, statusCode)
  }

  /** The keys of `ErrorTypes`. */
  datatype ErrorType = Network | Auth | Validation | Server | NotFound | Unknown

  const AllErrorTypes: seq<ErrorType> := [Network, Auth, Validation, Server, NotFound, Unknown]

  /** `ErrorTypes`: the code string each key stands for. */
  function Code(t: ErrorType): (c: string)
    ensures t != NotFound ==> EndsWith(c, "_ERROR")
    ensures c != ""
  {
    match t
    case Network => "NETWORK_ERROR"
    case Auth => "AUTHENTICATION_ERROR"
    case Validation => "VALIDATION_ERROR"
    case Server => "SERVER_ERROR"
    case NotFound => "NOT_FOUND"
    case Unknown => "UNKNOWN_ERROR"
  }

  /** `ErrorMessages`, keyed by error code. */
  const ErrorMessages: map<string, string> := map[
    Code(Network) := "Unable to connect to the server. Please check your internet connection.",
    Code(Auth) := "You are not authorized to perform this action.",
    Code(Validation) := "Please check your input and try again.",
    Code(Server) := "Something went wrong on our end. Please try again later.",
    Code(NotFound) := "The requested resource was not found.",
    Code(Unknown) := "An unexpected error occurred."
  ]

  /** The message `ErrorMessages` holds for an error type. */
  function MessageOf(t: ErrorType): (message: string)
    ensures Code(t) in ErrorMessages && ErrorMessages[Code(t)] == message
    ensures message != ""
  {
    ErrorMessages[Code(t)]
  }

  /** The six codes are pairwise distinct, so no entry of `ErrorMessages`
      overwrites another. */
  lemma CodesDistinct(s: ErrorType, t: ErrorType)
    requires s != t
    ensures Code(s) != Code(t)
  {
  }

  /** `AllErrorTypes` lists every error type. */
  lemma AllErrorTypesComplete(t: ErrorType)
    ensures t in AllErrorTypes
  {
    match t
    case Network => assert AllErrorTypes[0] == t;
    case Auth => assert AllErrorTypes[1] == t;
    case Validation => assert AllErrorTypes[2] == t;
    case Server => assert AllErrorTypes[3] == t;
    case NotFound => assert AllErrorTypes[4] == t;
    case Unknown => assert AllErrorTypes[5] == t;
  }

  /** `ErrorMessages` has exactly one entry per error type and no other:
      its keys are the codes of the six types. */
  lemma ErrorMessagesKeys()
    ensures ErrorMessages.Keys == set t | t in AllErrorTypes :: Code(t)
  {
    var codes := set t | t in AllErrorTypes :: Code(t);
    forall c | c in ErrorMessages ensures c in codes {
      if c == Code(Network) { assert AllErrorTypes[0] == Network; }
      else if c == Code(Auth) { assert AllErrorTypes[1] == Auth; }
      else if c == Code(Validation) { assert AllErrorTypes[2] == Validation; }
      else if c == Code(Server) { assert AllErrorTypes[3] == Server; }
      else if c == Code(NotFound) { assert AllErrorTypes[4] == NotFound; }
      else { assert AllErrorTypes[5] == Unknown; }
    }
  }

  /** `ErrorMessages` has as many entries as there are error types. */
  lemma ErrorMessagesSize()
    ensures |ErrorMessages| == |AllErrorTypes|
  {
    assert ErrorMessages.Keys == {"NETWORK_ERROR", "AUTHENTICATION_ERROR", "VALIDATION_ERROR",
                                  "SERVER_ERROR", "NOT_FOUND", "UNKNOWN_ERROR"};
  }

  // ---------------------------------------------------------------------------
  // handleError

  /** `error.response.data`. */
  datatype ResponseData = ResponseData(message: Option<string>)

  /** `error.response`, the HTTP response an API error carries. */
  datatype Response = Response(data: Option<ResponseData>, status: Option<int>)

  /** The fields of a thrown value that `handleError` looks at; any of
      them may be missing. */
  datatype ThrownError = ThrownError(response: Option<Response>, message: Option<string>, status: Option<int>)

  /** The `{ message, status }` object `handleError` returns. `status` is
      missing when an API response carried a message but no status. */
  datatype HandledError = HandledError(message: string, status: Option<int>)

  const DefaultMessage := "An unexpected error occurred. Please try again."
  const DefaultStatus := 500

  /** JavaScript truthiness of a number: present and not 0. */
  predicate IsTruthyNumber(n: Option<int>) {
    n.Some? && n.value != 0
  }

  /** `error?.response?.data?.message`. */
  function ResponseMessage(error: Option<ThrownError>): Option<string> {
    if error.Some? && error.value.response.Some? && error.value.response.value.data.Some?
    then error.value.response.value.data.value.message
    else None
  }

  /** `error?.message`. */
  function TopMessage(error: Option<ThrownError>): Option<string> {
    if error.Some? then error.value.message else None
  }

  /** `handleError(error)`, where None is a thrown `null` or `undefined`.
      The API response's message wins; then the error's own message with its
      status, 500 when that is missing or 0; otherwise the default. The
      result always has a message to show. */
  function HandleError(error: Option<ThrownError>): (r: HandledError)
    ensures r.message != ""
    ensures IsTruthyText(ResponseMessage(error)) ==>
      r == HandledError(ResponseMessage(error).value, error.value.response.value.status)
    ensures !IsTruthyText(ResponseMessage(error)) && IsTruthyText(TopMessage(error)) ==>
      r.message == error.value.message.value
      && r.status == Some(if IsTruthyNumber(error.value.status) then error.value.status.value else DefaultStatus)
    ensures !IsTruthyText(ResponseMessage(error)) && !IsTruthyText(TopMessage(error)) ==>
      r == HandledError(DefaultMessage, Some(DefaultStatus))
  {
    if IsTruthyText(ResponseMessage(error)) then
      HandledError(error.value.response.value.data.value.message.value, error.value.response.value.status)
    else if IsTruthyText(TopMessage(error)) then
      var status := error.value.status;
      HandledError(error.value.message.value, Some(if IsTruthyNumber(status) then status.value else DefaultStatus))
    else
      HandledError(DefaultMessage, Some(DefaultStatus))
  }

  /** The response's message takes precedence over the error's own
      message, whatever that is. */
  lemma ResponseMessageWins(error: ThrownError, top: Option<string>, status: Option<int>)
    requires IsTruthyText(ResponseMessage(Some(error)))
    ensures HandleError(Some(error)) == HandleError(Some(error.(message := top, status := status)))
    ensures TopMessage(Some(error)).Some? && TopMessage(Some(error)).value != ResponseMessage(Some(error)).value
      ==> HandleError(Some(error)).message != TopMessage(Some(error)).value
  {
  }

  /** Re-throwing a handled error as a plain error and handling it again
      keeps its message; its status survives too unless it was missing or
      0, in which case it becomes 500. */
  lemma HandleErrorIdempotent(error: Option<ThrownError>)
    ensures var once := HandleError(error);
      var twice := HandleError(Some(ThrownError(None, Some(once.message), once.status)));
      && twice.message == once.message
      && (IsTruthyNumber(once.status) ==> twice == once)
      && (!IsTruthyNumber(once.status) ==> twice.status == Some(DefaultStatus))
  {
  }

  /** Handling an `AppError` shows its message with status 500: the
      handler reads `status`, not the `statusCode` field `AppError` sets. */
  lemma HandleAppError(message: string, errorType: string, statusCode: int)
    requires message != ""
    ensures var e := NewAppError(message, errorType, statusCode);
      HandleError(Some(ThrownError(None, Some(e.message), None)))
        == HandledError(message, Some(DefaultStatus))
  {
  }
}

=== FILE: js_text.dfy ===
/** The JavaScript string built-ins the recipe service relies on:
    `toLowerCase` (ASCII letters only), `includes`,
    `Number.prototype.toString` on integers and `parseInt` without a radix.
    `StartsWith` and `EndsWith` serve to state contracts. */
module JsText {
  import opened Wrappers

  /** JavaScript truthiness of a string that may be missing: present and
      not empty. */
  predicate IsTruthyText(s: Option<string>) {
    s.Some? && s.value != ""
  }

  // ---------------------------------------------------------------------------
  // toLowerCase

  predicate IsUpper(c: char) {
    'A' <= c <= 'Z'
  }

  /** A capital becomes the lower-case letter in the same position of the
      alphabet; any other character is left as it is. */
  function LowerChar(c: char): (d: char)
    ensures !IsUpper(d)
    ensures IsUpper(c) ==> 'a' <= d <= 'z' && d as int - 'a' as int == c as int - 'A' as int
    ensures !IsUpper(c) ==> d == c
  {
    if IsUpper(c) then (c as int + 32) as char else c
  }

  /** `s.toLowerCase()`, restricted to the 26 ASCII capitals. */
  function ToLower(s: string): (r: string)
    ensures |r| == |s|
    ensures forall i :: 0 <= i < |s| ==> r[i] == LowerChar(s[i])
  {
    if s == [] then [] else [LowerChar(s[0])] + ToLower(s[1..])
  }

  /** Lower-casing twice is lower-casing once. */
  lemma ToLowerIdempotent(s: string)
    ensures ToLower(ToLower(s)) == ToLower(s)
  {
    var once := ToLower(s);
    assert forall i :: 0 <= i < |once| ==> LowerChar(once[i]) == once[i];
  }

  /** Two characters are equal up to ASCII case. */
  predicate SameLetterIgnoringCase(c: char, d: char) {
    c == d || (IsUpper(c) && d as int == c as int + 32) || (IsUpper(d) && c as int == d as int + 32)
  }

  /** Two characters lower-case to the same character exactly when they
      are equal up to ASCII case. */
  lemma LowerCharEqualIff(c: char, d: char)
    ensures LowerChar(c) == LowerChar(d) <==> SameLetterIgnoringCase(c, d)
  {
    if IsUpper(c) && !IsUpper(d) && LowerChar(c) == LowerChar(d) {
      assert d as int == c as int + 32;
    }
    if IsUpper(d) && !IsUpper(c) && LowerChar(c) == LowerChar(d) {
      assert c as int == d as int + 32;
    }
  }

  /** Lower-casing makes two strings equal exactly when they agree character
      by character up to ASCII case. */
  lemma ToLowerEqualIff(s: string, t: string)
    ensures ToLower(s) == ToLower(t) <==>
      |s| == |t| && forall i :: 0 <= i < |s| ==> SameLetterIgnoringCase(s[i], t[i])
  {
    if |s| == |t| {
      forall i | 0 <= i < |s|
        ensures ToLower(s)[i] == ToLower(t)[i] <==> SameLetterIgnoringCase(s[i], t[i])
      {
        assert ToLower(s)[i] == LowerChar(s[i]) && ToLower(t)[i] == LowerChar(t[i]);
        LowerCharEqualIff(s[i], t[i]);
      }
    }
  }

  // ---------------------------------------------------------------------------
  // includes, startsWith, endsWith

  predicate StartsWith(s: string, prefix: string) {
    |prefix| <= |s| && s[..|prefix|] == prefix
  }

  predicate EndsWith(s: string, suffix: string) {
    |suffix| <= |s| && s[|s| - |suffix|..] == suffix
  }

  /** `s.includes(t)`: t occurs in s at some position. */
  predicate Includes(s: string, t: string)
    ensures Includes(s, t) ==> |t| <= |s|
    ensures |t| == |s| ==> (Includes(s, t) <==> s == t)
    decreases |s|
  {
    StartsWith(s, t) || (|s| > 0 && Includes(s[1..], t))
  }

  /** An occurrence of t in s starting at index i. */
  predicate OccursAt(s: string, t: string, i: int) {
    0 <= i && i + |t| <= |s| && s[i..i + |t|] == t
  }

  /** `Includes` holds exactly when t occurs at some index of s. */
  lemma {:induction false} IncludesIffOccurs(s: string, t: string)
    ensures Includes(s, t) <==> exists i :: OccursAt(s, t, i)
    decreases |s|
  {
    if StartsWith(s, t) {
      assert OccursAt(s, t, 0);
    } else if |s| > 0 {
      IncludesIffOccurs(s[1..], t);
      if i :| OccursAt(s, t, i) {
        assert s[1..][i - 1..i - 1 + |t|] == s[i..i + |t|];
        assert OccursAt(s[1..], t, i - 1);
      }
      if j :| OccursAt(s[1..], t, j) {
        assert s[1..][j..j + |t|] == s[j + 1..j + 1 + |t|];
        assert OccursAt(s, t, j + 1);
      }
    }
  }

  /** Every string includes the empty string. */
  lemma IncludesEmpty(s: string)
    ensures Includes(s, "")
  {
    assert StartsWith(s, "");
  }

  // ---------------------------------------------------------------------------
  // Digits and Number.prototype.toString on integers

  predicate IsDigit(c: char) {
    '0' <= c <= '9'
  }

  predicate AllDigits(s: string) {
    forall i :: 0 <= i < |s| ==> IsDigit(s[i])
  }

  function DigitChar(d: nat): (c: char)
    requires d < 10
    ensures IsDigit(c)
  {
    ('0' as int + d) as char
  }

  /** The decimal numeral of n, without leading zeros. */
  function NatToString(n: nat): (s: string)
    ensures |s| >= 1 && AllDigits(s)
    ensures s[0] == '0' <==> n == 0
    ensures n >= 10 <==> |s| >= 2
  {
    if n < 10 then [DigitChar(n)] else NatToString(n / 10) + [DigitChar(n % 10)]
  }

  /** `String(i)` for an integral number i. */
  function IntToString(i: int): (s: string)
    ensures |s| >= 1
    ensures s[0] == '-' <==> i < 0
  {
    if i < 0 then "-" + NatToString(-i) else NatToString(i)
  }

  /** Distinct numbers have distinct numerals. */
  lemma {:induction false} NatToStringInjective(m: nat, n: nat)
    requires NatToString(m) == NatToString(n)
    ensures m == n
    decreases m
  {
    var s := NatToString(m);
    if m >= 10 {
      assert n >= 10;
      assert s[..|s| - 1] == NatToString(m / 10) == NatToString(n / 10);
      NatToStringInjective(m / 10, n / 10);
      assert DigitChar(m % 10) == s[|s| - 1] == DigitChar(n % 10);
    }
  }

  lemma IntToStringInjective(i: int, j: int)
    requires IntToString(i) == IntToString(j)
    ensures i == j
  {
    if i < 0 {
      assert IntToString(i)[1..] == NatToString(-i);
      assert IntToString(j)[1..] == NatToString(-j);
      NatToStringInjective(-i, -j);
    } else {
      NatToStringInjective(i, j);
    }
  }

  // ---------------------------------------------------------------------------
  // parseInt(s) with no radix argument

  /** The white space `parseInt` skips before the number. Only the
      characters listed here are recognised; other Unicode space
      separators are not. */
  predicate IsWhiteSpace(c: char) {
    c == ' ' || c == '\t' || c == '\n' || c == '\r' || c as int == 0x0B
    || c as int == 0x0C || c as int == 0xA0 || c as int == 0xFEFF
    || c as int == 0x2028 || c as int == 0x2029
  }

  function TrimStart(s: string): (r: string)
    ensures |r| <= |s| && r == s[|s| - |r|..]
    ensures r == [] || !IsWhiteSpace(r[0])
    ensures forall i :: 0 <= i < |s| - |r| ==> IsWhiteSpace(s[i])
  {
    if s != [] && IsWhiteSpace(s[0]) then TrimStart(s[1..]) else s
  }

  predicate IsHexLetter(c: char) {
    'a' <= c <= 'f' || 'A' <= c <= 'F'
  }

  predicate IsRadixDigit(c: char, hex: bool) {
    IsDigit(c) || (hex && IsHexLetter(c))
  }

  function RadixDigitValue(c: char, hex: bool): (v: nat)
    requires IsRadixDigit(c, hex)
    ensures v < (if hex then 16 else 10)
    ensures IsDigit(c) ==> v == c as int - '0' as int
    ensures 'a' <= c <= 'f' ==> v == c as int - 'a' as int + 10
    ensures 'A' <= c <= 'F' ==> v == c as int - 'A' as int + 10
  {
    if IsDigit(c) then c as int - '0' as int
    else if 'a' <= c <= 'f' then c as int - 'a' as int + 10
    else c as int - 'A' as int + 10
  }

  /** The longest prefix of s made of digits of the radix. */
  function DigitPrefix(s: string, hex: bool): (ds: string)
    ensures |ds| <= |s| && ds == s[..|ds|]
    ensures forall i :: 0 <= i < |ds| ==> IsRadixDigit(ds[i], hex)
    ensures |ds| == |s| || !IsRadixDigit(s[|ds|], hex)
  {
    if s != [] && IsRadixDigit(s[0], hex) then [s[0]] + DigitPrefix(s[1..], hex) else []
  }

  /** The value of a numeral in radix 10 or 16, read left to right. */
  function RadixValue(ds: string, hex: bool): nat
    requires forall i :: 0 <= i < |ds| ==> IsRadixDigit(ds[i], hex)
  {
    if ds == [] then 0
    else RadixValue(ds[..|ds| - 1], hex) * (if hex then 16 else 10)
         + RadixDigitValue(ds[|ds| - 1], hex)
  }

  /** The unsigned part of `parseInt`: radix 16 after a `0x`/`0X` prefix,
      otherwise radix 10, then the longest run of digits; None when there
      is no digit at all. */
  function ParseMagnitude(u: string): (r: Option<nat>)
    ensures var hex := |u| >= 2 && u[0] == '0' && (u[1] == 'x' || u[1] == 'X');
      var body := if hex then u[2..] else u;
      r.None? <==> body == [] || !IsRadixDigit(body[0], hex)
  {
    var hex := |u| >= 2 && u[0] == '0' && (u[1] == 'x' || u[1] == 'X');
    var ds := DigitPrefix(if hex then u[2..] else u, hex);
    if ds == [] then None else Some(RadixValue(ds, hex))
  }

  /** `parseInt` once the white space is skipped: an optional sign, then
      the magnitude; no digit at all gives NaN, here None. */
  function ParseSigned(t: string): (r: Option<int>)
    ensures r.Some? ==> |t| > 0 && (t[0] == '-' || t[0] == '+' || IsDigit(t[0]))
    ensures r.Some? && r.value < 0 ==> t[0] == '-'
  {
    var negative := |t| > 0 && t[0] == '-';
    var u := if |t| > 0 && (t[0] == '-' || t[0] == '+') then t[1..] else t;
    match ParseMagnitude(u)
    case None => None
    case Some(v) => Some(if negative then 0 - v else v as int)
  }

  /** `parseInt(s)` with no radix: skip leading white space, then read a
      signed number. */
  function ParseInt(s: string): (r: Option<int>)
    ensures var t := TrimStart(s);
      r.Some? ==> |t| > 0 && (t[0] == '-' || t[0] == '+' || IsDigit(t[0]))
    ensures var t := TrimStart(s);
      r.Some? && r.value < 0 ==> t[0] == '-'
  {
    ParseSigned(TrimStart(s))
  }

  lemma {:induction false} RadixValueOfNatToString(n: nat)
    ensures RadixValue(NatToString(n), false) == n
    decreases n
  {
    var s := NatToString(n);
    if n >= 10 {
      assert s[..|s| - 1] == NatToString(n / 10);
      RadixValueOfNatToString(n / 10);
    }
  }

  lemma {:induction false} DigitPrefixOfDigits(ds: string, rest: string, hex: bool)
    requires forall i :: 0 <= i < |ds| ==> IsRadixDigit(ds[i], hex)
    requires rest == [] || !IsRadixDigit(rest[0], hex)
    ensures DigitPrefix(ds + rest, hex) == ds
    decreases |ds|
  {
    if ds != [] {
      assert (ds + rest)[1..] == ds[1..] + rest;
      DigitPrefixOfDigits(ds[1..], rest, hex);
      assert [ds[0]] + ds[1..] == ds;
    } else {
      assert ds + rest == rest;
    }
  }

  /** What may follow a numeral without changing what
      `parseInt` reads: nothing, or a character that is neither a digit nor
      the `x` of a hexadecimal prefix. */
  predicate EndsNumeral(rest: string) {
    rest == [] || (!IsDigit(rest[0]) && rest[0] != 'x' && rest[0] != 'X')
  }

  /** The decimal part of the round trip: an unsigned numeral followed by
      non-numeric text. */
  lemma ParseMagnitudeOfNatToString(n: nat, rest: string)
    requires EndsNumeral(rest)
    ensures ParseMagnitude(NatToString(n) + rest) == Some(n)
  {
    var digits := NatToString(n);
    var u := digits + rest;
    if |digits| >= 2 {
      assert IsDigit(u[1]);
    } else if |u| >= 2 {
      assert u[1] == rest[0];
    }
    DigitPrefixOfDigits(digits, rest, false);
    RadixValueOfNatToString(n);
  }

  /** `parseInt` on text that starts with a sign or a digit reads the sign
      and then the magnitude. */
  lemma ParseIntSigned(s: string)
    requires |s| > 0 && (s[0] == '-' || s[0] == '+' || IsDigit(s[0]))
    ensures ParseInt(s) == match ParseMagnitude(if s[0] == '-' || s[0] == '+' then s[1..] else s)
      case None => None
      case Some(v) => Some(if s[0] == '-' then 0 - v else v as int)
  {
    assert !IsWhiteSpace(s[0]);
    assert TrimStart(s) == s;
  }

  /** `parseInt` reads back the numeral `toString` writes, whatever
      non-numeric text follows it. */
  lemma ParseIntOfIntToString(i: int, rest: string)
    requires EndsNumeral(rest)
    ensures ParseInt(IntToString(i) + rest) == Some(i)
  {
    var s := IntToString(i) + rest;
    if i < 0 {
      var m: nat := -i;
      assert s == ['-'] + (NatToString(m) + rest);
      assert s[0] == '-' && s[1..] == NatToString(m) + rest;
      ParseMagnitudeOfNatToString(m, rest);
      assert ParseMagnitude(s[1..]) == Some(m);
      ParseIntSigned(s);
    } else {
      assert s == NatToString(i) + rest && IsDigit(s[0]);
      ParseMagnitudeOfNatToString(i, rest);
      ParseIntSigned(s);
    }
  }

  /** Removing white space from the front of white space followed by s
      gives what removing it from s gives. */
  lemma {:induction false} TrimStartOfWhiteSpace(w: string, s: string)
    requires forall i :: 0 <= i < |w| ==> IsWhiteSpace(w[i])
    ensures TrimStart(w + s) == TrimStart(s)
    decreases |w|
  {
    if w != [] {
      assert (w + s)[0] == w[0];
      assert (w + s)[1..] == w[1..] + s;
      TrimStartOfWhiteSpace(w[1..], s);
    } else {
      assert w + s == s;
    }
  }

  /** `parseInt` skips any white space in front of the number. */
  lemma ParseIntSkipsWhiteSpace(w: string, s: string)
    requires forall i :: 0 <= i < |w| ==> IsWhiteSpace(w[i])
    ensures ParseInt(w + s) == ParseInt(s)
  {
    TrimStartOfWhiteSpace(w, s);
  }

  /** After a `0x` or `0X` prefix `parseInt` reads the longest run of hex
      digits in radix 16, whatever follows that is not a hex digit. */
  lemma ParseMagnitudeOfHex(x: char, ds: string, rest: string)
    requires x == 'x' || x == 'X'
    requires ds != [] && forall i :: 0 <= i < |ds| ==> IsRadixDigit(ds[i], true)
    requires rest == [] || !IsRadixDigit(rest[0], true)
    ensures ParseMagnitude(['0', x] + (ds + rest)) == Some(RadixValue(ds, true))
  {
    var u := ['0', x] + (ds + rest);
    assert u[0] == '0' && u[1] == x;
    assert u[2..] == ds + rest;
    DigitPrefixOfDigits(ds, rest, true);
    assert DigitPrefix(u[2..], true) == ds;
  }
}

=== FILE: recipe_service.dfy ===
/** `recipeService`: search, lookup by id, the consolidated ingredient list
    and recipe generation. Each operation awaits at most one API call; how that
    call settled is a parameter (`Outcome`), and so are the environment
    flags and the table of mock recipes used in development. What remains
    is the service's own choice of what to return or throw. */
module RecipeService {
  import opened Wrappers
  import opened JsText
  import opened Recipes

  /** How the awaited `api` call settled: the reply body, or a thrown error. */
  datatype Outcome<B> = Reply(body: B) | Failure

  /** The environment variables the service reads: `NODE_ENV` and
      `REACT_APP_ENABLE_AI_FEATURES`. */
  datatype Env = Env(nodeEnv: Option<string>, enableAiFeatures: Option<string>)

  predicate IsDevelopment(env: Env) {
    env.nodeEnv == Some("development")
  }

  /** `AI_FEATURES_ENABLED`. */
  predicate AiFeaturesEnabled(env: Env) {
    env.enableAiFeatures == Some("enabled")
  }

  const MaxSearchResults: nat := 5

  const SearchFailed := "Failed to search recipes. Please try again later."
  const LookupFailed := "Failed to fetch recipe details. Please try again later."
  const ConsolidationFailed := "Failed to get consolidated list. Please try again later."
  const GenerationDisabled := "AI recipe generation is not enabled"
  const GenerationFailed := "Failed to generate recipe. Please try again later."

  // ---------------------------------------------------------------------------
  // searchRecipes

  /** The search endpoint's reply; a `null` reply behaves like one without
      `recipes`. */
  datatype SearchReply = SearchReply(recipes: Option<seq<Recipe>>)

  /** `recipes.slice(0, 5)`: the first five results, or all of them when
      there are fewer, in the order received. */
  function FirstResults(recipes: seq<Recipe>): (r: seq<Recipe>)
    ensures |r| == if |recipes| < MaxSearchResults then |recipes| else MaxSearchResults
    ensures r == recipes[..|r|]
  {
    if |recipes| <= MaxSearchResults then recipes else recipes[..MaxSearchResults]
  }

  /** `item.name.toLowerCase().includes(query.toLowerCase())`. */
  predicate NameMatches(recipe: Recipe, query: string)
    ensures NameMatches(recipe, query) ==> |query| <= |recipe.name|
  {
    Includes(ToLower(recipe.name), ToLower(query))
  }

  /** A recipe matches exactly when the lower-cased query occurs at some
      position of the lower-cased name. */
  lemma NameMatchesIffOccurs(recipe: Recipe, query: string)
    ensures NameMatches(recipe, query) ==> exists i :: OccursAt(ToLower(recipe.name), ToLower(query), i)
    ensures (exists i :: OccursAt(ToLower(recipe.name), ToLower(query), i)) ==> NameMatches(recipe, query)
  {
    IncludesIffOccurs(ToLower(recipe.name), ToLower(query));
  }

  /** `MOCK_RECIPES.filter(...)` on the name: the recipes whose name contains
      the query, ignoring case, and only those. */
  function FilterByName(recipes: seq<Recipe>, query: string): (r: seq<Recipe>)
    ensures |r| <= |recipes|
    ensures forall x :: x in r <==> x in recipes && NameMatches(x, query)
  {
    if recipes == [] then []
    else (if NameMatches(recipes[0], query) then [recipes[0]] else [])
         + FilterByName(recipes[1..], query)
  }

  /** Filtering keeps the mock table's order: filtering a concatenation is
      concatenating the filtered parts. */
  lemma {:induction false} FilterByNameAppend(a: seq<Recipe>, b: seq<Recipe>, query: string)
    ensures FilterByName(a + b, query) == FilterByName(a, query) + FilterByName(b, query)
    decreases |a|
  {
    if a == [] {
      assert a + b == b;
    } else {
      assert (a + b)[1..] == a[1..] + b;
      FilterByNameAppend(a[1..], b, query);
    }
  }

  /** An empty query matches every recipe, so the whole table comes back. */
  lemma {:induction false} FilterByEmptyQuery(recipes: seq<Recipe>)
    ensures FilterByName(recipes, "") == recipes
  {
    if recipes != [] {
      IncludesEmpty(ToLower(recipes[0].name));
      FilterByEmptyQuery(recipes[1..]);
    }
  }

  /** The query's case does not matter. */
  lemma {:induction false} FilterIgnoresQueryCase(recipes: seq<Recipe>, query: string)
    ensures FilterByName(recipes, ToLower(query)) == FilterByName(recipes, query)
  {
    ToLowerIdempotent(query);
    if recipes != [] {
      FilterIgnoresQueryCase(recipes[1..], query);
    }
  }

  /** `searchRecipes(query)`. A reply with `recipes` gives its first five;
      otherwise development falls back to the mock recipes whose name
      contains the query, and production gives no results when the reply
      had none and fails when the call failed. */
  function SearchRecipes(query: string, reply: Outcome<SearchReply>, env: Env, mocks: seq<Recipe>)
    : (r: Result<seq<Recipe>>)
    ensures reply.Reply? && reply.body.recipes.Some? ==>
      var received := reply.body.recipes.value;
      r.Ok? && |r.value| == (if |received| < MaxSearchResults then |received| else MaxSearchResults)
      && r.value == received[..|r.value|]
    ensures !(reply.Reply? && reply.body.recipes.Some?) && IsDevelopment(env) ==>
      r == Ok(FilterByName(mocks, query))
    ensures reply.Reply? && reply.body.recipes.None? && !IsDevelopment(env) ==> r == Ok([])
    ensures reply.Failure? && !IsDevelopment(env) ==> r == Err(SearchFailed)
  {
    match reply
    case Reply(body) =>
      if body.recipes.Some? then Ok(FirstResults(body.recipes.value))
      else if IsDevelopment(env) then Ok(FilterByName(mocks, query))
      else Ok([])
    case Failure =>
      if IsDevelopment(env) then Ok(FilterByName(mocks, query))
      else Err(SearchFailed)
  }

  /** In development the no-data path and the failure path give the same
      mock results. */
  lemma SearchFallbacksAgree(query: string, env: Env, mocks: seq<Recipe>)
    requires IsDevelopment(env)
    ensures SearchRecipes(query, Failure, env, mocks) == SearchRecipes(query, Reply(SearchReply(None)), env, mocks)
  {
  }

  // ---------------------------------------------------------------------------
  // getRecipeById

  /** What `getRecipeById` resolves with: the API's reply as it came, or
      `{ data: mockRecipe || null }`. */
  datatype RecipeDetails<B> = ApiDetails(body: B) | MockDetails(data: Option<Recipe>)

  /** The position of the first recipe with the given id. */
  function FindById(recipes: seq<Recipe>, id: int): (k: Option<nat>)
    ensures k.Some? ==>
      k.value < |recipes| && recipes[k.value].id == id
      && forall j :: 0 <= j < k.value ==> recipes[j].id != id
    ensures k.None? ==> forall j :: 0 <= j < |recipes| ==> recipes[j].id != id
  {
    if recipes == [] then None
    else if recipes[0].id == id then Some(0)
    else match FindById(recipes[1..], id)
      case None => None
      case Some(k) => Some(k + 1)
  }

  /** `MOCK_RECIPES.find(r => r.id === parseInt(id))`. When `parseInt`
      gives NaN nothing is equal to it and the result is None. */
  function MockById(mocks: seq<Recipe>, id: string): (r: Option<Recipe>)
    ensures r.Some? ==> r.value in mocks && ParseInt(id) == Some(r.value.id)
    ensures r.None? ==> ParseInt(id).None? || forall m :: m in mocks ==> m.id != ParseInt(id).value
  {
    match ParseInt(id)
    case None => None
    case Some(n) =>
      match FindById(mocks, n)
      case None => None
      case Some(k) => Some(mocks[k])
  }

  /** Looking a mock recipe up by the text of its own id finds it, as long
      as no earlier mock shares that id; trailing non-numeric text after the
      id is ignored, as `parseInt` ignores it. */
  lemma MockByIdFindsRecipe(mocks: seq<Recipe>, k: nat, rest: string)
    requires k < |mocks|
    requires forall j :: 0 <= j < k ==> mocks[j].id != mocks[k].id
    requires EndsNumeral(rest)
    ensures MockById(mocks, IntToString(mocks[k].id) + rest) == Some(mocks[k])
  {
    ParseIntOfIntToString(mocks[k].id, rest);
    assert FindById(mocks, mocks[k].id) == Some(k);
  }

  /** `getRecipeById(id)`: the API's reply as it came; on failure, in
      development, the mock recipe with that id or null, and otherwise an
      error. */
  function GetRecipeById<B>(id: string, reply: Outcome<B>, env: Env, mocks: seq<Recipe>)
    : (r: Result<RecipeDetails<B>>)
    ensures reply.Reply? ==> r == Ok(ApiDetails(reply.body))
    ensures reply.Failure? && IsDevelopment(env) ==>
      r.Ok? && r.value.MockDetails? && r.value.data == MockById(mocks, id)
      && (r.value.data.Some? ==> r.value.data.value in mocks && ParseInt(id) == Some(r.value.data.value.id))
      && (ParseInt(id).None? ==> r.value.data.None?)
    ensures reply.Failure? && !IsDevelopment(env) ==> r == Err(LookupFailed)
  {
    match reply
    case Reply(body) => Ok(ApiDetails(body))
    case Failure =>
      if IsDevelopment(env) then Ok(MockDetails(MockById(mocks, id)))
      else Err(LookupFailed)
  }

  // ---------------------------------------------------------------------------
  // getConsolidatedList

  /** The consolidated-list endpoint's reply, and what the operation
      resolves with: `{ ingredients }`. */
  datatype ConsolidatedReply = ConsolidatedReply(ingredients: Option<seq<Ingredient>>)

  /** `MOCK_RECIPES.filter(recipe => recipeIds.includes(recipe.id.toString()))`:
      the mock recipes whose id, written as text, is among `recipeIds`, in
      mock order. */
  function SelectRecipes(recipes: seq<Recipe>, recipeIds: seq<string>): (r: seq<Recipe>)
    ensures |r| <= |recipes|
    ensures forall x :: x in r <==> x in recipes && IntToString(x.id) in recipeIds
  {
    if recipes == [] then []
    else (if IntToString(recipes[0].id) in recipeIds then [recipes[0]] else [])
         + SelectRecipes(recipes[1..], recipeIds)
  }

  /** Selection keeps the mock table's order and multiplicity: selecting
      from a concatenation is concatenating the selections. */
  lemma {:induction false} SelectRecipesAppend(a: seq<Recipe>, b: seq<Recipe>, recipeIds: seq<string>)
    ensures SelectRecipes(a + b, recipeIds) == SelectRecipes(a, recipeIds) + SelectRecipes(b, recipeIds)
    decreases |a|
  {
    if a == [] {
      assert a + b == b;
    } else {
      assert (a + b)[1..] == a[1..] + b;
      SelectRecipesAppend(a[1..], b, recipeIds);
    }
  }

  /** Only which ids are requested matters, not their order or repetition:
      the selection follows the mock table. */
  lemma {:induction false} SelectIgnoresIdOrder(recipes: seq<Recipe>, ids1: seq<string>, ids2: seq<string>)
    requires forall s :: s in ids1 <==> s in ids2
    ensures SelectRecipes(recipes, ids1) == SelectRecipes(recipes, ids2)
  {
    if recipes != [] {
      SelectIgnoresIdOrder(recipes[1..], ids1, ids2);
    }
  }

  /** What `acc.push(...recipe.ingredients)` contributes for one recipe:
      its ingredients, or nothing when it has none. */
  function IngredientsOf(recipe: Recipe): seq<Ingredient> {
    if recipe.ingredients.Some? then recipe.ingredients.value else []
  }

  /** The left fold the `reduce` performs: every ingredient of every
      recipe, recipe after recipe. */
  function Flatten(recipes: seq<Recipe>): (all: seq<Ingredient>)
    ensures forall x :: x in all <==>
      exists k :: 0 <= k < |recipes| && x in IngredientsOf(recipes[k])
  {
    if recipes == [] then []
    else Flatten(recipes[..|recipes| - 1]) + IngredientsOf(recipes[|recipes| - 1])
  }

  /** The number of ingredient lines the recipes hold between them. */
  function TotalCount(recipes: seq<Recipe>): nat {
    if recipes == [] then 0 else |IngredientsOf(recipes[0])| + TotalCount(recipes[1..])
  }

  /** The fallback list of a concatenation is the concatenation of the
      fallback lists: nothing is merged across recipes. */
  lemma {:induction false} FlattenAppend(a: seq<Recipe>, b: seq<Recipe>)
    ensures Flatten(a + b) == Flatten(a) + Flatten(b)
    decreases |b|
  {
    if b == [] {
      assert a + b == a;
    } else {
      var b' := b[..|b| - 1];
      assert (a + b)[..|a + b| - 1] == a + b';
      FlattenAppend(a, b');
    }
  }

  /** The fallback list is as long as all the selected recipes' ingredient
      lists together: no line is merged or dropped. */
  lemma {:induction false} FlattenLength(recipes: seq<Recipe>)
    ensures |Flatten(recipes)| == TotalCount(recipes)
    decreases |recipes|
  {
    if recipes != [] {
      assert recipes == [recipes[0]] + recipes[1..];
      FlattenAppend([recipes[0]], recipes[1..]);
      assert Flatten([recipes[0]]) == IngredientsOf(recipes[0]);
      FlattenLength(recipes[1..]);
    }
  }

  /** The `reduce` with `push`: appends each selected recipe's ingredients
      to an accumulator, in order. */
  method GatherIngredients(selected: seq<Recipe>) returns (all: seq<Ingredient>)
    ensures all == Flatten(selected)
    ensures |all| == TotalCount(selected)
  {
    all := [];
    var i := 0;
    while i < |selected|
      invariant 0 <= i <= |selected|
      invariant all == Flatten(selected[..i])
    {
      if selected[i].ingredients.Some? {
        all := all + selected[i].ingredients.value;
      }
      assert selected[..i + 1][..i] == selected[..i];
      i := i + 1;
    }
    assert selected[..i] == selected;
    FlattenLength(selected);
  }

  /** `getConsolidatedList(recipeIds)`. A reply with `ingredients` is
      returned as it came; otherwise development falls back to the
      ingredients of the selected mock recipes, concatenated, and
      production gives an empty list when the reply had none and fails
      when the call failed. */
  method GetConsolidatedList(recipeIds: seq<string>, reply: Outcome<ConsolidatedReply>, env: Env, mocks: seq<Recipe>)
    returns (r: Result<ConsolidatedReply>)
    ensures reply.Reply? && reply.body.ingredients.Some? ==> r == Ok(reply.body)
    ensures !(reply.Reply? && reply.body.ingredients.Some?) && IsDevelopment(env) ==>
      r.Ok? && r.value.ingredients == Some(Flatten(SelectRecipes(mocks, recipeIds)))
      && |r.value.ingredients.value| == TotalCount(SelectRecipes(mocks, recipeIds))
    ensures reply.Reply? && reply.body.ingredients.None? && !IsDevelopment(env) ==>
      r == Ok(ConsolidatedReply(Some([])))
    ensures reply.Failure? && !IsDevelopment(env) ==> r == Err(ConsolidationFailed)
  {
    if reply.Reply? && reply.body.ingredients.Some? {
      return Ok(reply.body);
    }
    if IsDevelopment(env) {
      var selected := SelectRecipes(mocks, recipeIds);
      var all := GatherIngredients(selected);
      return Ok(ConsolidatedReply(Some(all)));
    }
    if reply.Reply? {
      return Ok(ConsolidatedReply(Some([])));
    }
    return Err(ConsolidationFailed);
  }

  // ---------------------------------------------------------------------------
  // generateRecipe

  /** The recipe development mode invents when generation fails: the
      requested name with a fixed list of eight ingredients and six steps. */
  function MockGeneratedRecipe(recipeName: string): (g: GeneratedRecipe)
    ensures g.name == recipeName
    ensures |g.ingredients| == 8 && |g.instructions| == 6
  {
    GeneratedRecipe(
      recipeName,
      [ Ingredient("Onion", Some(2.0), Some("medium")),
        Ingredient("Tomato", Some(3.0), Some("large")),
        Ingredient("Ginger", Some(1.0), Some("inch")),
        Ingredient("Garlic", Some(4.0), Some("cloves")),
        Ingredient("Turmeric", Some(1.0), Some("tsp")),
        Ingredient("Red Chili Powder", Some(1.0), Some("tsp")),
        Ingredient("Garam Masala", Some(1.0), Some("tsp")),
        Ingredient("Salt", Some(0.0), Some("to taste")) ],
      [ "Chop the onions and tomatoes",
        "Heat oil in a pan",
        "Add chopped onions and sauté till golden brown",
        "Add ginger garlic paste and sauté for 2 minutes",
        "Add tomatoes and cook till soft",
        "Add all the spices and cook for 5 minutes" ])
  }

  /** `generateRecipe(recipeName)`. Refused outright when AI features are
      off; otherwise the API's reply as it came, and on failure the
      development stand-in named as requested, or an error. */
  function GenerateRecipe(recipeName: string, reply: Outcome<GeneratedRecipe>, env: Env)
    : (r: Result<GeneratedRecipe>)
    ensures !AiFeaturesEnabled(env) ==> r == Err(GenerationDisabled)
    ensures AiFeaturesEnabled(env) && reply.Reply? ==> r == Ok(reply.body)
    ensures AiFeaturesEnabled(env) && reply.Failure? && IsDevelopment(env) ==>
      r.Ok? && r.value.name == recipeName && r.value == MockGeneratedRecipe(recipeName)
    ensures AiFeaturesEnabled(env) && reply.Failure? && !IsDevelopment(env) ==>
      r == Err(GenerationFailed)
  {
    if !AiFeaturesEnabled(env) then Err(GenerationDisabled)
    else match reply
      case Reply(body) => Ok(body)
      case Failure =>
        if IsDevelopment(env) then Ok(MockGeneratedRecipe(recipeName))
        else Err(GenerationFailed)
  }

  /** With AI features off the API is never consulted: the result is the
      same whatever the call would have returned. */
  lemma GenerationOffIgnoresApi(recipeName: string, reply1: Outcome<GeneratedRecipe>,
                                reply2: Outcome<GeneratedRecipe>, env: Env)
    requires !AiFeaturesEnabled(env)
    ensures GenerateRecipe(recipeName, reply1, env) == GenerateRecipe(recipeName, reply2, env)
    ensures GenerateRecipe(recipeName, reply1, env).Err?
  {
  }
}

=== FILE: recipes.dfy ===
/** The records the recipe portal passes around: ingredient lines and recipes. */
module Recipes {
  import opened Wrappers

  /** One ingredient line, `{ name, quantity, unit }`. An absent or `null`
      quantity or unit is None; a quantity of 0 means "to taste". */
  datatype Ingredient = Ingredient(name: string, quantity: Option<real>, unit: Option<string>)

  /** A recipe as the mock table and the search API describe it. The
      ingredient list may be missing, which the service checks for. */
  datatype Recipe = Recipe(
    id: int,
    name: string,
    cuisine: string,
    description: string,
    ingredients: Option<seq<Ingredient>>,
    instructions: Option<seq<string>>)

  /** A recipe produced by the generation endpoint (or its development
      stand-in): it carries no id. */
  datatype GeneratedRecipe = GeneratedRecipe(
    name: string,
    ingredients: seq<Ingredient>,
    instructions: seq<string>)
}

=== FILE: wrappers.dfy ===
/** Optional values and the outcome of an operation that may throw. */
module Wrappers {

  /** A value that may be absent: JavaScript's `undefined` / `null`. */
  datatype Option<+T> = None | Some(value: T)

  /** The settled state of a promise: resolved with a value, or rejected
      with the message of the `Error` that was thrown. */
  datatype Result<+T> = Ok(value: T) | Err(message: string)
}
